=== FILE: README.md ===
# websurfx search route: a Dafny model

This project models the request-side decision logic of the `/search` route of
websurfx, a privacy-preserving meta-search engine (`src/server/routes/search.rs`).
A search request goes through these steps:

- **Parameter normalisation.** A missing or blank `q` redirects to `/`. A
  missing `page` becomes 1. The effective safe-search level is resolved from
  the server level and the level the request asks for.
- **Adjacent-page fan-out.** `results` runs for the previous, the current and
  the next page. Each call has its own cache key, built from the query, the
  page and the level. Only the current page is rendered.
- **Filter lists.** `is_match_from_filter_list` compiles each line of a block
  list or allow list as a regular expression and stops at the first line that
  matches.
- **Cache-aside flow of `results`.** A cache hit returns the stored value. At
  level 4, a miss checks the filter lists and may short-circuit to a
  "disallowed" value. Otherwise the engines are selected, the aggregator is
  called, an empty aggregate is marked `filtered`, and the value is written to
  the cache.

Each part is modelled in the form the source has:

- The nested `match` expressions of the normalisation are functions.
- The filter-list scan is a `method` with a `while` loop, a mutable `flag` and
  a `break`. It is proved against the function `FilterList.FirstMatch`.
- The Redis cache is the class `Cache.RedisCache`. Its `entries` map is
  updated in place.
- `results` and `search` are methods over that cache. Each is proved equal to
  a function of its inputs and of the cache before the call
  (`ResultsFlow.ResultsSpec`, `SearchRoute.SearchSpec`). The properties are
  lemmas about those functions.

The collaborators are parameters: the regular-expression engine (`Regex`),
`EngineHandler::new` (a partial name-to-handler function), `aggregate`, and the
two list files (sequences of lines). `results` and `search` also return a
trace of their external calls (cache read, filter-list read, aggregator call, cache write), so
that statements like "the aggregator is not called" can be written down.

Files: `text.dfy` (trim, decimal rendering), `models.dfy` (the values passed
around), `filter_list.dfy`, `engines.dfy`, `cache.dfy`, `results_flow.dfy`,
`search_route.dfy`.

### Quirks of the code (the model follows the code)

- **Block-list verdict.** The doc comment of `is_match_from_filter_list`
  (lines 277-278) speaks of keywords that are disallowed or allowed by the
  block list and the allow list, so a reader might expect a query to be
  blocked when the block list matches and the allow list does not. The code
  overwrites the block-list result (lines 211-213), so only "no allow-list line
  matches" decides. The block list is still scanned, and its errors still
  propagate.
- **Cache-write failures.** A reader might expect a failed cache write to be
  ignored. The code propagates it with `?` (lines 219-221 and 269-271).
- **Undecodable cache entries.** A reader might expect a corrupt entry to count
  as a miss. The code returns the decoding error (line 207).
- **Order of checks.** A reader might expect the filter lists to be checked
  before the cache. The code looks up the cache first and checks the filter
  lists only on a miss (lines 202-209), as the doc comment of `results` says
  (lines 170-171).
- **Malformed query strings.** A reader might expect them to redirect to the
  home page, as a missing `q` does. The code returns the decoding error of
  `from_query` (line 93).

## Model

| member | source | states |
|---|---|---|
| `Text.TrimEmptyIffAllWhitespace` | src/server/routes/search.rs:96 | `query.trim().is_empty()` holds exactly when every character of the query is Unicode whitespace |
| `Text.TrimStart` | src/server/routes/search.rs:96 | the result is a suffix of the input, what it drops is all whitespace, and it does not start with whitespace |
| `Text.TrimEnd` | src/server/routes/search.rs:96 | the result is a prefix of the input, what it drops is all whitespace, and it does not end with whitespace |
| `Text.Trim` | src/server/routes/search.rs:96 | the trimmed query is no longer than the query, neither starts nor ends with whitespace, and is empty for an all-whitespace query; it is a piece of the query with only whitespace dropped on either side |
| `Text.Decimal` | src/server/routes/search.rs:119-126 | the `{}` rendering of a page or level is a non-empty string of digits, starting with `0` only for zero |
| `Text.DecimalRoundTrip` | src/server/routes/search.rs:119-126 | parsing the rendering of a number gives the number back |
| `Text.DecimalInjective` | src/server/routes/search.rs:119-126 | two numbers are rendered alike exactly when they are equal |
| `Text.SplitAtDigitSuffix` | src/server/routes/search.rs:120 | a key ending in a separator followed by digits splits in only one way |
| `Models.Deserialize` | src/server/routes/search.rs:207 | decoding the stored JSON fails exactly for text that is not an encoded `SearchResults` |
| `Models.SerializeRoundTrip` | src/server/routes/search.rs:207 | a value written to the cache decodes back to itself |
| `FilterList.IsMatchFromFilterList` | src/server/routes/search.rs:279-293 | the loop with its `flag` and `break` returns what the front-to-back scan `FirstMatch` returns, or an error when the file cannot be opened |
| `FilterList.FirstMatch` | src/server/routes/search.rs:285-292 | the front-to-back scan of the lines; it has no contract of its own, and `FirstMatchDecidedAt`, `FirstMatchFalseIff`, `FirstMatchOfValidList` and `FirstMatchOfConcat` state its cases |
| `FilterList.FilterListMatch` | src/server/routes/search.rs:279-293 | the whole call, failing when the file cannot be opened and otherwise the scan `FirstMatch`; it has no contract of its own, and `IsMatchFromFilterList` is proved equal to it |
| `FilterList.FirstMatchDecidedAt` | src/server/routes/search.rs:285-291 | the first line that is unreadable, invalid or matching decides the result: true for a match, otherwise that line's error |
| `FilterList.FirstMatchFalseIff` | src/server/routes/search.rs:283-292 | the result is false exactly when every line is read, compiles and does not match |
| `FilterList.FirstMatchOfValidList` | src/server/routes/search.rs:285-292 | on a list of valid patterns, the result is true exactly when some line matches |
| `FilterList.FirstMatchOfConcat` | src/server/routes/search.rs:287-290 | once a prefix decides the scan (a match or an error), the following lines are never examined; a prefix that does not decide it is skipped |
| `Engines.ResolveEngines` | src/server/routes/search.rs:235-239 | resolving never yields more handlers than there are names |
| `Engines.ResolveEnginesMembership` | src/server/routes/search.rs:235-239 | a handler is selected exactly when some cookie name resolves to it |
| `Engines.ResolveEnginesOfConcat` | src/server/routes/search.rs:235-239 | resolution keeps the order of the names: it distributes over concatenation |
| `Engines.ResolveEnginesAllUnknown` | src/server/routes/search.rs:238 | names `EngineHandler::new` rejects are dropped silently; all unknown gives no engines and no error |
| `Engines.ResolveEnginesAllKnown` | src/server/routes/search.rs:235-239 | when all names are known, each name yields its own handler, in order |
| `Cache.Lookup` | src/server/routes/search.rs:202-203 | a read succeeds exactly when the pool answers and the key is present, and then gives the stored JSON |
| `Cache.Store` | src/server/routes/search.rs:269-271 | a write sets the entry under the key when the pool answers, changes nothing otherwise, and never touches another key |
| `Cache.RedisCache.constructor` | src/server/routes/search.rs:194-200 | the shared cache handle starts with the given entries and connection state |
| `Cache.RedisCache.CachedJson` | src/server/routes/search.rs:202-203 | the read returns the stored JSON exactly when the pool answers and the key is present |
| `Cache.RedisCache.CacheResults` | src/server/routes/search.rs:219-221 | the write succeeds exactly when the pool answers; the new entries are the old ones with the key set, or unchanged on failure |
| `ResultsFlow.DisallowedResults` | src/server/routes/search.rs:210-218 | the disallowed value is empty and `disallowed`, not `filtered`, and carries the configured style and the query |
| `ResultsFlow.Annotate` | src/server/routes/search.rs:265-268 | `filtered` is set exactly when both the result list and the engine-error list are empty (or it was set already); the style is attached; nothing else changes |
| `ResultsFlow.Results` | src/server/routes/search.rs:185-275 | the step-by-step flow returns the result, makes the calls and leaves the cache entries that `ResultsSpec` gives, and keeps the connection state |
| `ResultsFlow.ResultsSpec` | src/server/routes/search.rs:185-275 | the outcome of one `results` call; it has no contract of its own, and `CacheHitReturnsStored`, `CorruptEntryIsAnError`, `DisallowShortCircuit`, `BlockListVerdictIgnored`, `BlockListErrorPropagates`, `AggregatePathOutcome`, `CacheWriteFailurePropagates`, `ErrorLeavesCacheUnchanged` and `ResultsTraceFacts` state its cases |
| `ResultsFlow.CacheHitReturnsStored` | src/server/routes/search.rs:206-207 | a hit returns the cached value; the cache read is the only call, and nothing is written |
| `ResultsFlow.CorruptEntryIsAnError` | src/server/routes/search.rs:207 | a stored entry that does not decode is returned as an error, not treated as a miss |
| `ResultsFlow.DisallowShortCircuit` | src/server/routes/search.rs:209-223 | a miss at level 4 with no allow-list match reads both lists and writes and returns the disallowed value under the request key; the aggregator is not called; with the pool down, the write error is returned |
| `ResultsFlow.BlockListVerdictIgnored` | src/server/routes/search.rs:211-215 | any two block lists that scan without error give the same outcome: only the allow list decides |
| `ResultsFlow.BlockListErrorPropagates` | src/server/routes/search.rs:211-212 | an error in the block list is returned; the allow list is not read and nothing is written |
| `ResultsFlow.AggregatePathOutcome` | src/server/routes/search.rs:230-272 | on a miss that reaches the aggregator, the calls are exactly the read (and at level 4 the two list reads), one aggregator call with the query, page, level, configuration and selected engines, and the write under the request key; the result is the aggregate with `filtered` set exactly when empty and the style attached, every other field kept; the cache then holds it under the request key |
| `ResultsFlow.SelectEngines` | src/server/routes/search.rs:230-263 | the engine selection fails exactly when the cookie is present but does not decode (the `?` at line 233), with the cookie-decoding error; the cookie's names never yield more handlers than there are names |
| `ResultsFlow.SelectEnginesChoice` | src/server/routes/search.rs:230-263 | with no cookie the configured engines are used; with a cookie a handler is used exactly when one of the cookie's names resolves to it |
| `ResultsFlow.CacheWriteFailurePropagates` | src/server/routes/search.rs:269-271 | with the pool down, every call fails and the cache is unchanged, even when a value was computed |
| `ResultsFlow.AggregatePathFacts` | src/server/routes/search.rs:230-272 | the aggregate path keeps the calls made so far and appends at most an aggregator call with the request's own query, page and level, followed by a write under the request key; it changes no cache entry but its own |
| `ResultsFlow.ResultsTraceFacts` | src/server/routes/search.rs:185-275 | every call reads its key first, reads filter lists only at level 4, calls the aggregator only with its own query, page and level, and changes no cache entry but its own |
| `ResultsFlow.RepeatedRequestServedFromCache` | src/server/routes/search.rs:202-272 | after a successful call on a connected cache, the same key is served from the cache with the same value, whatever the second call's cookie and collaborators |
| `ResultsFlow.ErrorLeavesCacheUnchanged` | src/server/routes/search.rs:202-272 | a call that returns an error leaves the cache entries as they were: every `?` comes before the write, and a failed write stores nothing |
| `ResultsFlow.RepeatedCallSameResult` | src/server/routes/search.rs:202-272 | the same call made twice returns the same result the second time, on success (from the cache) and on failure |
| `ResultsFlow.OtherKeyUnaffected` | src/server/routes/search.rs:117-159 | a call under one key changes neither the result nor the calls of a later call under another key |
| `ResultsFlow.EntriesAfter` | src/server/routes/search.rs:202-272 | a call leaves the old entries, or the old entries with its own value stored under its key when it ends with a successful write |
| `ResultsFlow.OrderOfDifferentKeys` | src/server/routes/search.rs:117-159 | two calls under different keys return the same results, make the same calls and leave the same cache entries in either order |
| `SearchRoute.ResolveSafeSearch` | src/server/routes/search.rs:106-115 | a server level of 3 or 4 is always the effective level; otherwise the effective level is at most 2 or equals the server level |
| `SearchRoute.SafeSearchFromRequest` | src/server/routes/search.rs:108-114 | below server level 3, a requested level of 0 to 2 is kept, a higher one becomes 1, and no requested level keeps the server level |
| `SearchRoute.LevelFourOnlyFromServer` | src/server/routes/search.rs:106-115 | the effective level is 4 exactly when the server level is 4 |
| `SearchRoute.PlanSearchNormalises` | src/server/routes/search.rs:94-115 | the request goes home exactly when `q` is missing or blank; otherwise the untrimmed query, `page` (default 1) and the resolved level are used |
| `SearchRoute.PlanSearch` | src/server/routes/search.rs:94-115 | a missing `q` goes home, and a query that is fetched is the request's own `q`, not blank |
| `SearchRoute.PageZeroWrapsToLastPage` | src/server/routes/search.rs:124 | in the source's arithmetic, `page=0` makes the previous page 4294967295 |
| `SearchRoute.LastPageWrapsToZero` | src/server/routes/search.rs:150 | in the source's arithmetic, `page=4294967295` makes the next page 0 |
| `SearchRoute.AdjacentPagesAsWritten` | src/server/routes/search.rs:124-155 | the source's `u32` pages: `page - 1` and `page + 1` for pages that do not wrap, 4294967295 as the previous page of page 0, and 0 as the next page of page 4294967295 |
| `SearchRoute.AdjacentPages` | src/server/routes/search.rs:117-159 | the corrected pages: the current page, a previous page at most one below it and a next page at most one above it, all within `u32` |
| `SearchRoute.AdjacentPagesAgreeInRange` | src/server/routes/search.rs:117-159 | for 1 <= page < 4294967295 the corrected pages and the source's pages are both `page - 1`, `page`, `page + 1` |
| `SearchRoute.PageKeyInjective` | src/server/routes/search.rs:119-126 | two keys are equal exactly when query, page and level are equal, so each key determines what it embeds |
| `SearchRoute.PageKey` | src/server/routes/search.rs:119-126 | the `format!` key of a query, a page and a level; `SearchRoute.PageKeyInjective` states that it determines all three |
| `SearchRoute.PageCallsAdjacent` | src/server/routes/search.rs:117-159 | for 1 <= page < 4294967295 the three calls are for `page - 1`, `page` and `page + 1`, each under the key of its page and the level, and the three keys differ |
| `SearchRoute.PageCalls` | src/server/routes/search.rs:117-159 | the corrected pages: three calls, the middle one for the requested page, the first at or below it and the last at or above it, each under the key of its own page and the level |
| `SearchRoute.Search` | src/server/routes/search.rs:88-168 | the handler returns the response, makes the calls and leaves the cache entries that `SearchSpec` gives |
| `SearchRoute.SearchSpec` | src/server/routes/search.rs:88-168 | the outcome of one request to `/search`; it has no contract of its own, and `MalformedQueryIsAnError`, `BlankQueryRedirects`, `SearchReadsThreePageKeys`, `SearchCallsUseEffectiveLevel` and `SearchRendersCurrentPage` state its cases |
| `SearchRoute.MalformedQueryIsAnError` | src/server/routes/search.rs:93 | a query string that does not decode gives the decoding error, with no `results` call and no change to the cache |
| `SearchRoute.BlankQueryRedirects` | src/server/routes/search.rs:94-100 | a missing or blank `q` redirects to `/`, with no `results` call and no change to the cache |
| `SearchRoute.ResultsReadsOnce` | src/server/routes/search.rs:202-203 | one `results` call reads the cache once, under its own key |
| `SearchRoute.SearchReadsThreePageKeys` | src/server/routes/search.rs:117-159 | a non-blank search reads exactly three keys, in order: those of the corrected previous, current and next pages at the effective level |
| `SearchRoute.SearchCallsUseEffectiveLevel` | src/server/routes/search.rs:106-159 | filter lists are read only when the server level is 4; every aggregator call gets the query, one of the three corrected pages and the effective level |
| `SearchRoute.SearchRendersCurrentPage` | src/server/routes/search.rs:117-161 | the response is what `results` for the current page alone, on the cache before the request, returns: the neighbours' errors are discarded and the previous page's call does not change it |

## Left out

- `index`, `not_found`, `about`, `settings`, `robots_data` and the final `hbs.render` are template and file I/O. A search answers `Render(results)` with the value that would be rendered.
- `src/lib.rs` is server wiring (actix `HttpServer`, CORS, rate limiter, static files, template registration). It is not part of this model.
- The lazy `REDIS_CACHE` pool initialisation and its `unwrap` panic are left out. The cache is one shared `RedisCache` object. A single `connected` flag makes both its reads and its writes fail. A pool that answers the read and then fails the write is not modelled.
- `tokio::join!` is modelled as three sequential calls over the same cache, previous page first. Other interleavings of the three calls are not modelled. For calls under different keys the order changes neither results, nor calls, nor the cache left behind (`ResultsFlow.OrderOfDifferentKeys`), and the response does not depend on the neighbouring calls (`SearchRoute.SearchRendersCurrentPage`).
- Regular expressions are a `Regex` parameter: which lines compile and what a compiled line matches. `file_path` and `File::open` failures are merged into one error. `BufReader::lines` becomes a sequence of lines and read errors.
- `serde_json` is an identity encoding (`Json.Encoded`), plus `Json.Garbled` for stored text that does not decode. Serialising a `SearchResults` for a write is taken never to fail.
- The decoding of the query string (`from_query`) and of the cookie are inputs: `ParsedParams` and `CookieValue`. Which texts decode to a `u32` or `u8` is not modelled.
- `aggregate` and `EngineHandler::new` are parameters (deterministic functions). Jitter, timeouts, merging and deduplication happen inside `aggregate`. That module is not part of this model, and neither are the `SearchResults` internals beyond the fields the route touches.
- The cache's TTL is not modelled.
- `SearchRoute.Search`: uses the corrected pages of the findings below (saturating at 0 and at 4294967295). The source's wrap-around is modelled separately by `SearchRoute.AdjacentPagesAsWritten`. The two agree for every page from 1 to 4294967294.
- `SearchRoute.PageCalls`: builds the calls on the corrected pages. At page 0 the source's first call is for page 4294967295 (above the page), and at page 4294967295 its last call is for page 0; the stated order of the pages holds only for the corrected pages.
- `SearchRoute.SearchReadsThreePageKeys`: states the keys of the corrected pages. At page 0 the source reads the key of page 4294967295 first, not the key of page 0, and at page 4294967295 it reads the key of page 0 last.
- `SearchRoute.SearchCallsUseEffectiveLevel`: allows only the corrected pages. At page 0 the source may call the aggregator for page 4294967295, and at page 4294967295 for page 0, which lie outside the stated set.

## Findings

| source | as written | input that shows it | evidently intended | confidence | as-written member | corrected member |
|---|---|---|---|---|---|---|
| src/server/routes/search.rs:124 | the previous page is `page - 1` on a `u32` | `/search?q=sweden&page=0`: the previous page becomes 4294967295 in a release build (a debug build panics), and `results` fetches and caches that page | the previous page of page 0 is page 0 (saturating subtraction) | not executed | `SearchRoute.PageZeroWrapsToLastPage` | `SearchRoute.AdjacentPages` |
| src/server/routes/search.rs:150 | the next page is `page + 1` on a `u32` | `/search?q=sweden&page=4294967295`: the next page becomes 0 in a release build (a debug build panics) | the next page stays at the last page (saturating addition) | not executed | `SearchRoute.LastPageWrapsToZero` | `SearchRoute.AdjacentPages` |

=== FILE: cache.dfy ===
/**
 * The Redis cache the route reads and writes, reduced to a map from request URL
 * to stored JSON and a flag that says whether the connection pool answers.
 * While it does not, every read fails (the route treats that as a miss) and
 * every write fails (the route propagates that).
 */
module Cache {
  import opened Models

  /** The answer of `cached_json(key)`. */
  function Lookup(entries: map<string, Json>, connected: bool, key: string): (r: Result<Json>)
    ensures r.Ok? <==> connected && key in entries
    ensures r.Ok? ==> r.value == entries[key]
  {
    if connected && key in entries then Ok(entries[key]) else Err(CacheReadError)
  }

  /** The entries after `cache_results(json, key)`. */
  function Store(entries: map<string, Json>, connected: bool, key: string, json: Json): (m: map<string, Json>)
    ensures connected ==> key in m && m[key] == json
    ensures forall k :: k in entries && k != key ==> k in m && m[k] == entries[k]
    ensures m.Keys <= entries.Keys + {key}
    ensures !connected ==> m == entries
  {
    if connected then entries[key := json] else entries
  }

  class RedisCache {
    var entries: map<string, Json>
    var connected: bool

    constructor (entries: map<string, Json>, connected: bool)
      ensures this.entries == entries && this.connected == connected
    {
      this.entries := entries;
      this.connected := connected;
    }

    /** `cached_json(url)`: the stored JSON, or an error for a miss or a failed pool. */
    method CachedJson(key: string) returns (r: Result<Json>)
      ensures r.Ok? <==> connected && key in entries
      ensures r.Ok? ==> r.value == entries[key]
    {
      if connected && key in entries {
        r := Ok(entries[key]);
      } else {
        r := Err(CacheReadError);
      }
    }

    /** `cache_results(json, url)`: overwrites the entry, or fails when the pool does not answer. */
    method CacheResults(json: Json, key: string) returns (r: Result<()>)
      modifies this
      ensures connected == old(connected)
      ensures r.Ok? == connected && (r.Err? ==> r.error == CacheWriteError)
      ensures entries == Store(old(entries), connected, key, json)
    {
      if connected {
        entries := entries[key := json];
        r := Ok(());
      } else {
        r := Err(CacheWriteError);
      }
    }
  }
}

=== FILE: engines.dfy ===
/**
 * Resolving the engine names of the `appCookie` cookie:
 * `names.iter().filter_map(|name| EngineHandler::new(name)).collect()`.
 * `EngineHandler::new` is not part of this model; it is a parameter that
 * answers `Some(handler)` for a name it knows and `None` otherwise.
 */
module Engines {
  import opened Models

  function ResolveEngines(names: seq<string>, newHandler: string -> Option<EngineHandler>): (r: seq<EngineHandler>)
    ensures |r| <= |names|
  {
    if names == [] then []
    else match newHandler(names[0])
      case Some(h) => [h] + ResolveEngines(names[1..], newHandler)
      case None => ResolveEngines(names[1..], newHandler)
  }

  /** Resolution keeps the order of the names: it distributes over concatenation. */
  lemma {:induction false} ResolveEnginesOfConcat(a: seq<string>, b: seq<string>, newHandler: string -> Option<EngineHandler>)
    ensures ResolveEngines(a + b, newHandler) == ResolveEngines(a, newHandler) + ResolveEngines(b, newHandler)
  {
    if a == [] {
      assert a + b == b;
    } else {
      assert (a + b)[0] == a[0];
      assert (a + b)[1..] == a[1..] + b;
      ResolveEnginesOfConcat(a[1..], b, newHandler);
    }
  }

  /** A handler is in the result exactly when some name resolves to it. */
  lemma {:induction false} ResolveEnginesMembership(names: seq<string>, newHandler: string -> Option<EngineHandler>, h: EngineHandler)
    ensures h in ResolveEngines(names, newHandler)
            <==> exists i :: 0 <= i < |names| && newHandler(names[i]) == Some(h)
  {
    if names != [] {
      ResolveEnginesMembership(names[1..], newHandler, h);
      if exists i :: 0 <= i < |names| && newHandler(names[i]) == Some(h) {
        var i :| 0 <= i < |names| && newHandler(names[i]) == Some(h);
        if i > 0 {
          assert names[1..][i - 1] == names[i];
        }
      }
      if exists i :: 0 <= i < |names| - 1 && newHandler(names[1..][i]) == Some(h) {
        var i :| 0 <= i < |names| - 1 && newHandler(names[1..][i]) == Some(h);
        assert names[i + 1] == names[1..][i];
      }
    }
  }

  /** Unknown names are dropped silently: if every name is unknown, nothing is left. */
  lemma {:induction false} ResolveEnginesAllUnknown(names: seq<string>, newHandler: string -> Option<EngineHandler>)
    requires forall i :: 0 <= i < |names| ==> newHandler(names[i]).None?
    ensures ResolveEngines(names, newHandler) == []
  {
    if names != [] {
      assert forall i :: 0 <= i < |names| - 1 ==> names[1..][i] == names[i + 1];
      ResolveEnginesAllUnknown(names[1..], newHandler);
    }
  }

  /** If every name is known, each name yields its handler, in order. */
  lemma {:induction false} ResolveEnginesAllKnown(names: seq<string>, newHandler: string -> Option<EngineHandler>)
    requires forall i :: 0 <= i < |names| ==> newHandler(names[i]).Some?
    ensures var r := ResolveEngines(names, newHandler);
            |r| == |names| && forall i :: 0 <= i < |names| ==> newHandler(names[i]) == Some(r[i])
  {
    if names != [] {
      assert forall i :: 0 <= i < |names| - 1 ==> names[1..][i] == names[i + 1];
      ResolveEnginesAllKnown(names[1..], newHandler);
    }
  }
}

=== FILE: filter_list.dfy ===
/**
 * `is_match_from_filter_list`: scan a block or allow list line by line, compile
 * each line as a regular expression and stop at the first one that matches the
 * query. Regular expressions are not modelled: which lines compile and what a
 * compiled line matches are given by a `Regex` value.
 */
module FilterList {
  import opened Models

  /** One item of `BufReader::lines()`: a line, or a read error. */
  datatype LineRead = Line(text: string) | Unreadable

  /** A list file: it could not be located or opened, or it yields these lines. */
  datatype FilterFile = Unavailable | Lines(lines: seq<LineRead>)

  /** What `Regex::new` accepts and what `Regex::is_match` answers. */
  datatype Regex = Regex(compiles: string -> bool, isMatch: (string, string) -> bool)

  /** The line is read, compiles and does not match: the scan goes on past it. */
  predicate Passes(line: LineRead, query: string, rx: Regex) {
    line.Line? && rx.compiles(line.text) && !rx.isMatch(line.text, query)
  }

  /** What a scan returns at the first line that does not pass. */
  function Verdict(line: LineRead, query: string, rx: Regex): Result<bool>
    requires !Passes(line, query, rx)
  {
    match line
    case Unreadable => Err(LineReadError)
    case Line(p) => if rx.compiles(p) then Ok(true) else Err(InvalidPattern(p))
  }

  /** The scan of a list of lines, front to back. */
  function FirstMatch(lines: seq<LineRead>, query: string, rx: Regex): Result<bool> {
    if lines == [] then Ok(false)
    else if Passes(lines[0], query, rx) then FirstMatch(lines[1..], query, rx)
    else Verdict(lines[0], query, rx)
  }

  /** The whole call, including opening the file. */
  function FilterListMatch(file: FilterFile, query: string, rx: Regex): Result<bool> {
    match file
    case Unavailable => Err(FilterListUnavailable)
    case Lines(lines) => FirstMatch(lines, query, rx)
  }

  /**
   * The scan is decided by the first line that does not pass: a match there
   * gives true, an unreadable or invalid line there gives its error.
   */
  lemma {:induction false} FirstMatchDecidedAt(lines: seq<LineRead>, query: string, rx: Regex, k: nat)
    requires k < |lines|
    requires forall j :: 0 <= j < k ==> Passes(lines[j], query, rx)
    requires !Passes(lines[k], query, rx)
    ensures FirstMatch(lines, query, rx) == Verdict(lines[k], query, rx)
  {
    if k > 0 {
      assert Passes(lines[0], query, rx);
      FirstMatchDecidedAt(lines[1..], query, rx, k - 1);
    }
  }

  /** The scan returns false exactly when every line is read, compiles and does not match. */
  lemma {:induction false} FirstMatchFalseIff(lines: seq<LineRead>, query: string, rx: Regex)
    ensures FirstMatch(lines, query, rx) == Ok(false)
            <==> forall j :: 0 <= j < |lines| ==> Passes(lines[j], query, rx)
  {
    if lines != [] {
      FirstMatchFalseIff(lines[1..], query, rx);
      assert forall j :: 0 < j < |lines| ==> lines[j] == lines[1..][j - 1];
    }
  }

  /**
   * On a list whose every line is read and compiles, the scan returns true
   * exactly when some line matches.
   */
  lemma FirstMatchOfValidList(lines: seq<LineRead>, query: string, rx: Regex)
    requires forall j :: 0 <= j < |lines| ==> lines[j].Line? && rx.compiles(lines[j].text)
    ensures FirstMatch(lines, query, rx)
            == Ok(exists j :: 0 <= j < |lines| && rx.isMatch(lines[j].text, query))
  {
    FirstMatchFalseIff(lines, query, rx);
    if exists j :: 0 <= j < |lines| && rx.isMatch(lines[j].text, query) {
      var k := FirstNonPassingLine(lines, query, rx);
      FirstMatchDecidedAt(lines, query, rx, k);
    }
  }

  /** The index of the first line that does not pass, when there is one. */
  lemma FirstNonPassingLine(lines: seq<LineRead>, query: string, rx: Regex) returns (k: nat)
    requires exists j :: 0 <= j < |lines| && !Passes(lines[j], query, rx)
    ensures k < |lines| && !Passes(lines[k], query, rx)
    ensures forall j :: 0 <= j < k ==> Passes(lines[j], query, rx)
  {
    k := 0;
    while Passes(lines[k], query, rx)
      invariant k < |lines|
      invariant forall j :: 0 <= j < k ==> Passes(lines[j], query, rx)
      invariant exists j :: k <= j < |lines| && !Passes(lines[j], query, rx)
      decreases |lines| - k
    {
      k := k + 1;
    }
  }

  /**
   * Once a prefix of the list decides the scan (a match or an error), the lines
   * after it are never looked at; a prefix that does not decide it is skipped.
   */
  lemma {:induction false} FirstMatchOfConcat(prefix: seq<LineRead>, rest: seq<LineRead>, query: string, rx: Regex)
    ensures FirstMatch(prefix + rest, query, rx)
            == if FirstMatch(prefix, query, rx) == Ok(false) then FirstMatch(rest, query, rx)
               else FirstMatch(prefix, query, rx)
  {
    if prefix == [] {
      assert prefix + rest == rest;
    } else {
      assert (prefix + rest)[0] == prefix[0];
      assert (prefix + rest)[1..] == prefix[1..] + rest;
      FirstMatchOfConcat(prefix[1..], rest, query, rx);
    }
  }

  /** The loop of `is_match_from_filter_list`, with its mutable `flag` and `break`. */
  method IsMatchFromFilterList(file: FilterFile, query: string, rx: Regex) returns (r: Result<bool>)
    ensures r == FilterListMatch(file, query, rx)
  {
    var flag := false;
    if file.Unavailable? {
      return Err(FilterListUnavailable);
    }
    var lines := file.lines;
    var i := 0;
    while i < |lines|
      invariant 0 <= i <= |lines|
      invariant !flag
      invariant FirstMatch(lines, query, rx) == FirstMatch(lines[i..], query, rx)
    {
      var line := lines[i];
      if line.Unreadable? {
        return Err(LineReadError);
      }
      if !rx.compiles(line.text) {
        return Err(InvalidPattern(line.text));
      }
      if rx.isMatch(line.text, query) {
        flag := true;
        break;
      }
      assert lines[i..][1..] == lines[i + 1..];
      i := i + 1;
    }
    return Ok(flag);
  }
}

=== FILE: models.dfy ===
/**
 * The values the search route passes around. They stand for types defined in
 * crate modules that are not part of this model (`models::aggregation_models`,
 * `models::engine_models`, `config::parser`); only the fields and the setters
 * the route uses are kept.
 */
module Models {

  /** Rust's fixed-width unsigned integers. */
  newtype u8 = x: int | 0 <= x < 0x100
  newtype u16 = x: int | 0 <= x < 0x1_0000
  newtype u32 = x: int | 0 <= x < 0x1_0000_0000

  const U32_MAX: u32 := 0xFFFF_FFFF

  datatype Option<T> = None | Some(value: T)

  /** The two filter lists read when the safe-search level is 4. */
  datatype ListKind = BlockList | AllowList

  /** Every failure the route can propagate with `?`, plus the one it discards. */
  datatype Error =
    | QueryParseError              // `web::Query::from_query` rejected the query string
    | FilterListUnavailable        // `file_path(..)` or `File::open` failed
    | LineReadError                // a line of a filter list could not be read
    | InvalidPattern(pattern: string)  // `Regex::new` rejected a line
    | CacheReadError               // `cached_json` failed: a miss or a pool error (never propagated)
    | CacheWriteError              // `cache_results` failed
    | DeserializeError             // the cached JSON did not decode
    | CookieParseError             // the `appCookie` value did not decode
    | AggregateError(reason: string)  // `aggregate` failed

  datatype Result<T> = Ok(value: T) | Err(error: Error)

  /** Theme and colour scheme of the pages (`config.style`). */
  datatype Style = Style(theme: string, colorscheme: string)

  datatype SearchResult = SearchResult(title: string, url: string, description: string, engines: seq<string>)

  datatype EngineErrorInfo = EngineErrorInfo(error: string, engine: string, severity: nat)

  /** The aggregate for one page, with the flags and metadata the route sets on it. */
  datatype SearchResults = SearchResults(
    results: seq<SearchResult>,
    engineErrorsInfo: seq<EngineErrorInfo>,
    disallowed: bool,
    filtered: bool,
    style: Style,
    pageQuery: string)
  {
    function SetDisallowed(): SearchResults {
      this.(disallowed := true)
    }

    function SetFiltered(): SearchResults {
      this.(filtered := true)
    }

    function AddStyle(s: Style): SearchResults {
      this.(style := s)
    }

    function SetPageQuery(q: string): SearchResults {
      this.(pageQuery := q)
    }
  }

  /** `SearchResults::default()`. */
  const EmptySearchResults := SearchResults([], [], false, false, Style("", ""), "")

  /** A resolved upstream engine; the route only passes these on to the aggregator. */
  datatype EngineHandler = EngineHandler(name: string)

  /**
   * What the cache stores for a key: the JSON of a `SearchResults`, or text that
   * does not decode as one (an entry written by something else, or corrupted).
   */
  datatype Json = Encoded(results: SearchResults) | Garbled(text: string)

  /** `serde_json::to_string` on a `SearchResults`. */
  function Serialize(r: SearchResults): Json {
    Encoded(r)
  }

  /** `serde_json::from_str::<SearchResults>`. */
  function Deserialize(j: Json): (r: Result<SearchResults>)
    ensures r.Err? <==> j.Garbled?
  {
    match j
    case Encoded(v) => Ok(v)
    case Garbled(_) => Err(DeserializeError)
  }

  /** What is written can be read back unchanged. */
  lemma SerializeRoundTrip(r: SearchResults)
    ensures Deserialize(Serialize(r)) == Ok(r)
  {
  }

  /** The parts of the server configuration the route reads. */
  datatype Config = Config(
    bindingIp: string,
    port: u16,
    style: Style,
    safeSearch: u8,
    upstreamSearchEngines: seq<EngineHandler>,
    randomDelay: bool,
    debug: bool,
    requestTimeout: u8)
}

=== FILE: results_flow.dfy ===
/**
 * `results`: fetch the aggregate for one (query, page, safe-search level) from
 * the cache, or compute it and write it back. `ResultsSpec` states the whole
 * outcome of one call as a function of its inputs and the cache before the
 * call; the method `Results` is the step-by-step flow of the source, proved to
 * produce that outcome.
 */
module ResultsFlow {
  import opened Models
  import opened FilterList
  import opened Engines
  import opened Cache

  /** The decoded `appCookie` cookie, or a value that does not decode as one. */
  datatype CookieValue = AppCookie(theme: string, colorscheme: string, engines: seq<string>) | UnparsableCookie

  /** The part of the HTTP request `results` reads. */
  datatype Request = Request(appCookie: Option<CookieValue>)

  /** The arguments of one `aggregate(..)` call. */
  datatype AggregateRequest = AggregateRequest(
    query: string,
    page: u32,
    randomDelay: bool,
    debug: bool,
    engines: seq<EngineHandler>,
    requestTimeout: u8,
    safeSearch: u8)

  /**
   * Everything `results` calls that is not part of this model: the two filter
   * list files, the regular-expression engine, `EngineHandler::new` and
   * `aggregate`.
   */
  datatype Collaborators = Collaborators(
    blockList: FilterFile,
    allowList: FilterFile,
    regex: Regex,
    newHandler: string -> Option<EngineHandler>,
    aggregate: AggregateRequest -> Result<SearchResults>)

  /** A call to the outside world, in the order the flow makes them. */
  datatype Effect =
    | CacheRead(key: string)
    | FilterListRead(list: ListKind)
    | AggregateCall(request: AggregateRequest)
    | CacheWrite(key: string)

  /** What one call returns, the calls it made, and the cache entries it leaves. */
  datatype Outcome = Outcome(result: Result<SearchResults>, trace: seq<Effect>, entries: map<string, Json>)

  /** The value returned for a disallowed query. */
  function DisallowedResults(config: Config, query: string): (r: SearchResults)
    ensures r.disallowed && !r.filtered && r.results == [] && r.engineErrorsInfo == []
    ensures r.style == config.style && r.pageQuery == query
  {
    EmptySearchResults.SetDisallowed().AddStyle(config.style).SetPageQuery(query)
  }

  /** The aggregate as `results` hands it on: `filtered` when it is empty, with the style attached. */
  function Annotate(res: SearchResults, config: Config): (r: SearchResults)
    ensures r.filtered <==> res.filtered || (res.results == [] && res.engineErrorsInfo == [])
    ensures r.style == config.style
    ensures r.results == res.results && r.engineErrorsInfo == res.engineErrorsInfo
    ensures r.disallowed == res.disallowed && r.pageQuery == res.pageQuery
  {
    var r := if res.engineErrorsInfo == [] && res.results == [] then res.SetFiltered() else res;
    r.AddStyle(config.style)
  }

  /** The engines to query: those named in the cookie, or the configured ones when there is no cookie. */
  function SelectEngines(req: Request, config: Config, newHandler: string -> Option<EngineHandler>): (r: Result<seq<EngineHandler>>)
    ensures r.Err? <==> req.appCookie == Some(UnparsableCookie)
    ensures r.Err? ==> r.error == CookieParseError
    ensures r.Ok? && req.appCookie.Some? ==> |r.value| <= |req.appCookie.value.engines|
  {
    match req.appCookie
    case None => Ok(config.upstreamSearchEngines)
    case Some(UnparsableCookie) => Err(CookieParseError)
    case Some(AppCookie(_, _, names)) => Ok(ResolveEngines(names, newHandler))
  }

  /** Write `v` under `url` and return it; a failed write is returned as the error. */
  function WriteBack(v: SearchResults, url: string, trace: seq<Effect>, entries: map<string, Json>, connected: bool): Outcome {
    Outcome(if connected then Ok(v) else Err(CacheWriteError),
            trace + [CacheWrite(url)],
            Store(entries, connected, url, Serialize(v)))
  }

  /** The part of a miss that selects the engines, aggregates and writes back. */
  function AggregatePath(url: string, config: Config, query: string, page: u32, req: Request, safeSearch: u8,
                         env: Collaborators, trace: seq<Effect>, entries: map<string, Json>, connected: bool): Outcome
  {
    match SelectEngines(req, config, env.newHandler)
    case Err(e) => Outcome(Err(e), trace, entries)
    case Ok(engines) =>
      var request := AggregateRequest(query, page, config.randomDelay, config.debug, engines, config.requestTimeout, safeSearch);
      var trace' := trace + [AggregateCall(request)];
      match env.aggregate(request)
      case Err(e) => Outcome(Err(e), trace', entries)
      case Ok(res) => WriteBack(Annotate(res, config), url, trace', entries, connected)
  }

  /** The outcome of `results(url, config, query, page, req, safe_search)`. */
  function ResultsSpec(url: string, config: Config, query: string, page: u32, req: Request, safeSearch: u8,
                       env: Collaborators, entries: map<string, Json>, connected: bool): Outcome
  {
    var trace := [CacheRead(url)];
    match Lookup(entries, connected, url)
    case Ok(json) => Outcome(Deserialize(json), trace, entries)
    case Err(_) =>
      if safeSearch == 4 then
        var t1 := trace + [FilterListRead(BlockList)];
        match FilterListMatch(env.blockList, query, env.regex)
        case Err(e) => Outcome(Err(e), t1, entries)
        case Ok(_) =>
          // the block list's verdict is overwritten: only the allow list decides
          var t2 := t1 + [FilterListRead(AllowList)];
          match FilterListMatch(env.allowList, query, env.regex)
          case Err(e) => Outcome(Err(e), t2, entries)
          case Ok(allowed) =>
            if !allowed then WriteBack(DisallowedResults(config, query), url, t2, entries, connected)
            else AggregatePath(url, config, query, page, req, safeSearch, env, t2, entries, connected)
      else
        AggregatePath(url, config, query, page, req, safeSearch, env, trace, entries, connected)
  }

  /** The flow of `results` over a shared cache. */
  method Results(url: string, config: Config, query: string, page: u32, req: Request, safeSearch: u8,
                 env: Collaborators, cache: RedisCache)
    returns (r: Result<SearchResults>, trace: seq<Effect>)
    modifies cache
    ensures cache.connected == old(cache.connected)
    ensures Outcome(r, trace, cache.entries)
            == ResultsSpec(url, config, query, page, req, safeSearch, env, old(cache.entries), old(cache.connected))
  {
    var cachedResultsJson := cache.CachedJson(url);
    trace := [CacheRead(url)];
    if cachedResultsJson.Ok? {
      r := Deserialize(cachedResultsJson.value);
      return;
    }
    if safeSearch == 4 {
      var results := EmptySearchResults;
      trace := trace + [FilterListRead(BlockList)];
      var blocked := IsMatchFromFilterList(env.blockList, query, env.regex);
      if blocked.Err? {
        r := Err(blocked.error);
        return;
      }
      var flag := blocked.value;
      trace := trace + [FilterListRead(AllowList)];
      var allowed := IsMatchFromFilterList(env.allowList, query, env.regex);
      if allowed.Err? {
        r := Err(allowed.error);
        return;
      }
      flag := !allowed.value;
      if flag {
        results := results.SetDisallowed();
        results := results.AddStyle(config.style);
        results := results.SetPageQuery(query);
        trace := trace + [CacheWrite(url)];
        var written := cache.CacheResults(Serialize(results), url);
        if written.Err? {
          r := Err(written.error);
          return;
        }
        r := Ok(results);
        return;
      }
    }
    var engines: seq<EngineHandler>;
    match req.appCookie {
      case Some(cookie) =>
        if cookie.UnparsableCookie? {
          r := Err(CookieParseError);
          return;
        }
        engines := ResolveEngines(cookie.engines, env.newHandler);
      case None =>
        engines := config.upstreamSearchEngines;
    }
    var request := AggregateRequest(query, page, config.randomDelay, config.debug, engines, config.requestTimeout, safeSearch);
    trace := trace + [AggregateCall(request)];
    var aggregated := env.aggregate(request);
    if aggregated.Err? {
      r := Err(aggregated.error);
      return;
    }
    var results := aggregated.value;
    if results.engineErrorsInfo == [] && results.results == [] {
      results := results.SetFiltered();
    }
    results := results.AddStyle(config.style);
    trace := trace + [CacheWrite(url)];
    var written := cache.CacheResults(Serialize(results), url);
    if written.Err? {
      r := Err(written.error);
      return;
    }
    r := Ok(results);
  }

  // ---- Properties of one call ----

  /** A cache hit returns the stored value and does nothing else: no filter list, no aggregator, no write. */
  lemma CacheHitReturnsStored(url: string, config: Config, query: string, page: u32, req: Request, safeSearch: u8,
                              env: Collaborators, entries: map<string, Json>, v: SearchResults)
    requires url in entries && entries[url] == Encoded(v)
    ensures ResultsSpec(url, config, query, page, req, safeSearch, env, entries, true)
            == Outcome(Ok(v), [CacheRead(url)], entries)
  {
  }

  /** A stored value that does not decode is an error, not a miss. */
  lemma CorruptEntryIsAnError(url: string, config: Config, query: string, page: u32, req: Request, safeSearch: u8,
                              env: Collaborators, entries: map<string, Json>)
    requires url in entries && entries[url].Garbled?
    ensures ResultsSpec(url, config, query, page, req, safeSearch, env, entries, true)
            == Outcome(Err(DeserializeError), [CacheRead(url)], entries)
  {
  }

  /** A miss at level 4 with no allow-list match short-circuits: a disallowed value is written and returned, the aggregator is not called. */
  lemma DisallowShortCircuit(url: string, config: Config, query: string, page: u32, req: Request,
                             env: Collaborators, entries: map<string, Json>, connected: bool)
    requires Lookup(entries, connected, url).Err?
    requires FilterListMatch(env.blockList, query, env.regex).Ok?
    requires FilterListMatch(env.allowList, query, env.regex) == Ok(false)
    ensures var o := ResultsSpec(url, config, query, page, req, 4, env, entries, connected);
            && o.trace == [CacheRead(url), FilterListRead(BlockList), FilterListRead(AllowList), CacheWrite(url)]
            && (connected ==> o.result == Ok(DisallowedResults(config, query))
                              && o.entries == entries[url := Encoded(DisallowedResults(config, query))])
            && (!connected ==> o.result == Err(CacheWriteError) && o.entries == entries)
  {
  }

  /**
   * Whether a query is disallowed does not depend on the block list's verdict:
   * two block lists that both scan without error give the same outcome.
   */
  lemma BlockListVerdictIgnored(url: string, config: Config, query: string, page: u32, req: Request,
                                env: Collaborators, otherBlockList: FilterFile, entries: map<string, Json>, connected: bool)
    requires FilterListMatch(env.blockList, query, env.regex).Ok?
    requires FilterListMatch(otherBlockList, query, env.regex).Ok?
    ensures ResultsSpec(url, config, query, page, req, 4, env, entries, connected)
            == ResultsSpec(url, config, query, page, req, 4, env.(blockList := otherBlockList), entries, connected)
  {
  }

  /** An error in the block list still propagates: the allow list is not read and nothing is written. */
  lemma BlockListErrorPropagates(url: string, config: Config, query: string, page: u32, req: Request,
                                 env: Collaborators, entries: map<string, Json>, connected: bool)
    requires Lookup(entries, connected, url).Err?
    requires FilterListMatch(env.blockList, query, env.regex).Err?
    ensures ResultsSpec(url, config, query, page, req, 4, env, entries, connected)
            == Outcome(Err(FilterListMatch(env.blockList, query, env.regex).error),
                       [CacheRead(url), FilterListRead(BlockList)], entries)
  {
  }

  /**
   * On a miss that reaches the aggregator, it is called once with the query,
   * page and level of the call and the selected engines; a successful
   * aggregate is marked `filtered` exactly when it is empty, gets the style,
   * and is written under the request key before it is returned.
   */
  lemma AggregatePathOutcome(url: string, config: Config, query: string, page: u32, req: Request, safeSearch: u8,
                             env: Collaborators, entries: map<string, Json>, engines: seq<EngineHandler>, res: SearchResults)
    requires Lookup(entries, true, url).Err?
    requires safeSearch == 4 ==> FilterListMatch(env.blockList, query, env.regex).Ok?
                                 && FilterListMatch(env.allowList, query, env.regex) == Ok(true)
    requires SelectEngines(req, config, env.newHandler) == Ok(engines)
    requires env.aggregate(AggregateRequest(query, page, config.randomDelay, config.debug, engines, config.requestTimeout, safeSearch)) == Ok(res)
    ensures var o := ResultsSpec(url, config, query, page, req, safeSearch, env, entries, true);
            var pre := if safeSearch == 4 then [CacheRead(url), FilterListRead(BlockList), FilterListRead(AllowList)]
                       else [CacheRead(url)];
            && o.trace == pre + [AggregateCall(AggregateRequest(query, page, config.randomDelay, config.debug, engines,
                                                                config.requestTimeout, safeSearch)), CacheWrite(url)]
            && o.result == Ok(Annotate(res, config))
            && o.result.value.disallowed == res.disallowed && o.result.value.pageQuery == res.pageQuery
            && (o.result.value.filtered <==> res.filtered || (res.results == [] && res.engineErrorsInfo == []))
            && o.result.value.style == config.style
            && o.result.value.results == res.results
            && o.result.value.engineErrorsInfo == res.engineErrorsInfo
            && o.entries == entries[url := Encoded(o.result.value)]
            && AggregateCall(AggregateRequest(query, page, config.randomDelay, config.debug, engines, config.requestTimeout, safeSearch)) in o.trace
            && o.trace[|o.trace| - 1] == CacheWrite(url)
  {
  }

  /** Cookie engine names that `EngineHandler::new` rejects are dropped; without a cookie the configured engines are used. */
  lemma SelectEnginesChoice(req: Request, config: Config, newHandler: string -> Option<EngineHandler>)
    ensures req.appCookie.None? ==> SelectEngines(req, config, newHandler) == Ok(config.upstreamSearchEngines)
    ensures req.appCookie.Some? && req.appCookie.value.AppCookie? ==>
              SelectEngines(req, config, newHandler).Ok?
              && forall h :: h in SelectEngines(req, config, newHandler).value
                   <==> exists i :: 0 <= i < |req.appCookie.value.engines|
                                    && newHandler(req.appCookie.value.engines[i]) == Some(h)
  {
    if req.appCookie.Some? && req.appCookie.value.AppCookie? {
      forall h {
        ResolveEnginesMembership(req.appCookie.value.engines, newHandler, h);
      }
    }
  }

  /** A failed cache write makes the whole call fail, although the value was computed. */
  lemma CacheWriteFailurePropagates(url: string, config: Config, query: string, page: u32, req: Request, safeSearch: u8,
                                    env: Collaborators, entries: map<string, Json>)
    ensures var o := ResultsSpec(url, config, query, page, req, safeSearch, env, entries, false);
            o.result.Err? && o.entries == entries
  {
  }

  /**
   * The calls in a trace belong to one request: filter lists only at level 4,
   * the aggregator only with the request's query, page and level, writes only
   * under the request key.
   */
  ghost predicate CallsOfRequest(trace: seq<Effect>, url: string, query: string, page: u32, safeSearch: u8) {
    && (forall e :: e in trace && e.FilterListRead? ==> safeSearch == 4)
    && (forall e :: e in trace && e.AggregateCall? ==>
          e.request.query == query && e.request.page == page && e.request.safeSearch == safeSearch)
    && (forall e :: e in trace && e.CacheWrite? ==> e.key == url)
  }

  /** Only the entry under `url` may have changed. */
  ghost predicate OnlyKeyChanged(after: map<string, Json>, before: map<string, Json>, url: string) {
    && after.Keys <= before.Keys + {url}
    && (forall k :: k in before && k != url ==> k in after && after[k] == before[k])
  }

  lemma AggregatePathFacts(url: string, config: Config, query: string, page: u32, req: Request, safeSearch: u8,
                           env: Collaborators, trace: seq<Effect>, entries: map<string, Json>, connected: bool)
    requires trace != [] && trace[0] == CacheRead(url)
    requires CallsOfRequest(trace, url, query, page, safeSearch)
    ensures var o := AggregatePath(url, config, query, page, req, safeSearch, env, trace, entries, connected);
            && o.trace != [] && o.trace[0] == CacheRead(url)
            && CallsOfRequest(o.trace, url, query, page, safeSearch)
            && OnlyKeyChanged(o.entries, entries, url)
    ensures var o := AggregatePath(url, config, query, page, req, safeSearch, env, trace, entries, connected);
            && |trace| <= |o.trace| <= |trace| + 2 && o.trace[..|trace|] == trace
            && (|o.trace| > |trace| ==>
                  && o.trace[|trace|].AggregateCall?
                  && o.trace[|trace|].request.query == query
                  && o.trace[|trace|].request.page == page
                  && o.trace[|trace|].request.safeSearch == safeSearch)
            && (|o.trace| == |trace| + 2 ==> o.trace[|trace| + 1] == CacheWrite(url))
  {
    var o := AggregatePath(url, config, query, page, req, safeSearch, env, trace, entries, connected);
    if SelectEngines(req, config, env.newHandler).Ok? {
      var engines := SelectEngines(req, config, env.newHandler).value;
      var request := AggregateRequest(query, page, config.randomDelay, config.debug, engines, config.requestTimeout, safeSearch);
      var trace' := trace + [AggregateCall(request)];
      assert CallsOfRequest(trace', url, query, page, safeSearch);
      if env.aggregate(request).Ok? {
        assert o.trace == trace' + [CacheWrite(url)];
      }
    }
  }

  /**
   * What every call does: it reads the request key first, reads filter lists
   * only at level 4, calls the aggregator only with its own query, page and
   * level, writes only under its own key, and leaves every other entry alone.
   */
  lemma ResultsTraceFacts(url: string, config: Config, query: string, page: u32, req: Request, safeSearch: u8,
                          env: Collaborators, entries: map<string, Json>, connected: bool)
    ensures var o := ResultsSpec(url, config, query, page, req, safeSearch, env, entries, connected);
            && o.trace != [] && o.trace[0] == CacheRead(url)
            && CallsOfRequest(o.trace, url, query, page, safeSearch)
            && OnlyKeyChanged(o.entries, entries, url)
  {
    var trace := [CacheRead(url)];
    assert CallsOfRequest(trace, url, query, page, safeSearch);
    if Lookup(entries, connected, url).Err? {
      if safeSearch == 4 {
        var t2 := trace + [FilterListRead(BlockList), FilterListRead(AllowList)];
        assert CallsOfRequest(t2, url, query, page, safeSearch);
        assert t2 == trace + [FilterListRead(BlockList)] + [FilterListRead(AllowList)];
        AggregatePathFacts(url, config, query, page, req, safeSearch, env, t2, entries, connected);
        assert CallsOfRequest(t2 + [CacheWrite(url)], url, query, page, safeSearch);
      } else {
        AggregatePathFacts(url, config, query, page, req, safeSearch, env, trace, entries, connected);
      }
    }
  }

  // ---- Properties of repeated calls ----

  /**
   * Cache-aside is idempotent: once a call has succeeded on a connected cache,
   * the same key is served from the cache with the same value, whatever the
   * request and collaborators of the second call.
   */
  lemma RepeatedRequestServedFromCache(url: string, config: Config, query: string, page: u32, req: Request, safeSearch: u8,
                                       env: Collaborators, entries: map<string, Json>, req2: Request, env2: Collaborators)
    requires ResultsSpec(url, config, query, page, req, safeSearch, env, entries, true).result.Ok?
    ensures var o := ResultsSpec(url, config, query, page, req, safeSearch, env, entries, true);
            ResultsSpec(url, config, query, page, req2, safeSearch, env2, o.entries, true)
            == Outcome(o.result, [CacheRead(url)], o.entries)
  {
  }

  /** A call that fails writes nothing: every `?` of the flow comes before the write, and a failed write changes nothing. */
  lemma ErrorLeavesCacheUnchanged(url: string, config: Config, query: string, page: u32, req: Request, safeSearch: u8,
                                  env: Collaborators, entries: map<string, Json>, connected: bool)
    ensures var o := ResultsSpec(url, config, query, page, req, safeSearch, env, entries, connected);
            o.result.Err? ==> o.entries == entries
  {
  }

  /**
   * Running the same call twice gives the same result: a success is then
   * served from the cache, and a failure left the cache as it was.
   */
  lemma RepeatedCallSameResult(url: string, config: Config, query: string, page: u32, req: Request, safeSearch: u8,
                               env: Collaborators, entries: map<string, Json>, connected: bool)
    ensures var o := ResultsSpec(url, config, query, page, req, safeSearch, env, entries, connected);
            ResultsSpec(url, config, query, page, req, safeSearch, env, o.entries, connected).result == o.result
  {
    var o := ResultsSpec(url, config, query, page, req, safeSearch, env, entries, connected);
    ErrorLeavesCacheUnchanged(url, config, query, page, req, safeSearch, env, entries, connected);
    if o.result.Ok? {
      if connected {
        RepeatedRequestServedFromCache(url, config, query, page, req, safeSearch, env, entries, req, env);
      } else {
        CacheWriteFailurePropagates(url, config, query, page, req, safeSearch, env, entries);
      }
    }
  }

  /**
   * A call under one key does not change what a later call under another key
   * returns or does: calls for different keys may run in either order.
   */
  lemma OtherKeyUnaffected(url1: string, page1: u32, url2: string, page2: u32, config: Config, query: string,
                           req: Request, safeSearch: u8, env: Collaborators, entries: map<string, Json>, connected: bool)
    requires url1 != url2
    ensures var o1 := ResultsSpec(url1, config, query, page1, req, safeSearch, env, entries, connected);
            var later := ResultsSpec(url2, config, query, page2, req, safeSearch, env, o1.entries, connected);
            var alone := ResultsSpec(url2, config, query, page2, req, safeSearch, env, entries, connected);
            later.result == alone.result && later.trace == alone.trace
  {
    var o1 := ResultsSpec(url1, config, query, page1, req, safeSearch, env, entries, connected);
    ResultsTraceFacts(url1, config, query, page1, req, safeSearch, env, entries, connected);
    assert Lookup(o1.entries, connected, url2) == Lookup(entries, connected, url2);
  }

  /** The entries a call leaves: its value stored under its key when it ends with a successful write, the old ones otherwise. */
  lemma EntriesAfter(url: string, config: Config, query: string, page: u32, req: Request, safeSearch: u8,
                     env: Collaborators, entries: map<string, Json>, connected: bool)
    ensures var o := ResultsSpec(url, config, query, page, req, safeSearch, env, entries, connected);
            o.trace != []
            && o.entries == if o.result.Ok? && o.trace[|o.trace| - 1] == CacheWrite(url)
                            then entries[url := Encoded(o.result.value)] else entries
  {
  }

  /**
   * Two calls under different keys give the same results, make the same calls
   * and leave the same cache in either order.
   */
  lemma OrderOfDifferentKeys(url1: string, page1: u32, url2: string, page2: u32, config: Config, query: string,
                             req: Request, safeSearch: u8, env: Collaborators, entries: map<string, Json>, connected: bool)
    requires url1 != url2
    ensures var a := ResultsSpec(url1, config, query, page1, req, safeSearch, env, entries, connected);
            var ab := ResultsSpec(url2, config, query, page2, req, safeSearch, env, a.entries, connected);
            var b := ResultsSpec(url2, config, query, page2, req, safeSearch, env, entries, connected);
            var ba := ResultsSpec(url1, config, query, page1, req, safeSearch, env, b.entries, connected);
            && ab.result == b.result && ab.trace == b.trace
            && ba.result == a.result && ba.trace == a.trace
            && ab.entries == ba.entries
  {
    OtherKeyUnaffected(url1, page1, url2, page2, config, query, req, safeSearch, env, entries, connected);
    OtherKeyUnaffected(url2, page2, url1, page1, config, query, req, safeSearch, env, entries, connected);
    var a := ResultsSpec(url1, config, query, page1, req, safeSearch, env, entries, connected);
    var b := ResultsSpec(url2, config, query, page2, req, safeSearch, env, entries, connected);
    EntriesAfter(url1, config, query, page1, req, safeSearch, env, entries, connected);
    EntriesAfter(url2, config, query, page2, req, safeSearch, env, entries, connected);
    EntriesAfter(url2, config, query, page2, req, safeSearch, env, a.entries, connected);
    EntriesAfter(url1, config, query, page1, req, safeSearch, env, b.entries, connected);
  }
}

=== FILE: search_route.dfy ===
/**
 * The `search` route: normalise the query parameters, resolve the effective
 * safe-search level, and run `results` for the previous, the current and the
 * next page, each under its own cache key. The three calls run concurrently in
 * the source (`tokio::join!`); here they run one after the other over the same
 * cache.
 */
module SearchRoute {
  import opened Models
  import opened Text
  import opened Cache
  import opened ResultsFlow

  /** The decoded query string `?q=..&page=..&safesearch=..`. */
  datatype SearchParams = SearchParams(q: Option<string>, page: Option<u32>, safesearch: Option<u8>)

  /** The answer of `web::Query::<SearchParams>::from_query`. */
  datatype ParsedParams = Malformed | Parsed(params: SearchParams)

  /** What the route answers. Rendering the template is not modelled: `Render` carries the value rendered. */
  datatype Response = Redirect(location: string) | Render(results: SearchResults) | Failed(error: Error)

  /** What the parameters ask for: the home page, or the pages of a query. */
  datatype Plan = RedirectHome | Fetch(query: string, page: u32, safeSearch: u8)

  // ---- Parameter normalisation ----

  /** The effective safe-search level, from the server level and the one the request asks for. */
  function ResolveSafeSearch(server: u8, requested: Option<u8>): (level: u8)
    ensures 3 <= server <= 4 ==> level == server
    ensures level <= 2 || level == server
  {
    if 3 <= server <= 4 then server
    else match requested
      case Some(s) => if s <= 2 then s else 1
      case None => server
  }

  /** Below level 3 the request decides: 0 to 2 are kept, a higher level becomes 1, no level keeps the server's. */
  lemma SafeSearchFromRequest(server: u8, requested: Option<u8>)
    requires !(3 <= server <= 4)
    ensures requested.Some? && requested.value <= 2 ==> ResolveSafeSearch(server, requested) == requested.value
    ensures requested.Some? && requested.value > 2 ==> ResolveSafeSearch(server, requested) == 1
    ensures requested.None? ==> ResolveSafeSearch(server, requested) == server
  {
  }

  /** Level 4, which turns on the filter lists, can only come from the server configuration. */
  lemma LevelFourOnlyFromServer(server: u8, requested: Option<u8>)
    ensures ResolveSafeSearch(server, requested) == 4 <==> server == 4
  {
  }

  /** What the query string asks for: the home page, or a non-blank query with its page and level. */
  function PlanSearch(params: SearchParams, serverLevel: u8): (plan: Plan)
    ensures params.q.None? ==> plan.RedirectHome?
    ensures plan.Fetch? ==> params.q == Some(plan.query) && !AllWhitespace(plan.query)
  {
    match params.q
    case None => RedirectHome
    case Some(query) =>
      if Trim(query) == [] then RedirectHome
      else
        TrimEmptyIffAllWhitespace(query);
        var page := match params.page case Some(p) => p case None => 1;
        Fetch(query, page, ResolveSafeSearch(serverLevel, params.safesearch))
  }

  /**
   * A missing or blank query sends the client home; any other query is kept
   * untrimmed, with page 1 when none is given and the resolved level.
   */
  lemma PlanSearchNormalises(params: SearchParams, serverLevel: u8)
    ensures PlanSearch(params, serverLevel).RedirectHome?
            <==> params.q.None? || AllWhitespace(params.q.value)
    ensures PlanSearch(params, serverLevel).Fetch? ==>
              && PlanSearch(params, serverLevel).query == params.q.value
              && PlanSearch(params, serverLevel).page == (if params.page.Some? then params.page.value else 1)
              && PlanSearch(params, serverLevel).safeSearch == ResolveSafeSearch(serverLevel, params.safesearch)
  {
    if params.q.Some? {
      TrimEmptyIffAllWhitespace(params.q.value);
    }
  }

  // ---- The adjacent pages ----

  datatype PageTriple = PageTriple(previous: u32, current: u32, next: u32)

  /**
   * The pages as the source computes them, `page - 1` and `page + 1` on `u32`,
   * with the wrap-around of a release build (a debug build panics instead).
   */
  function AdjacentPagesAsWritten(page: u32): (t: PageTriple)
    ensures t.current == page
    ensures page > 0 ==> t.previous as int == page as int - 1
    ensures page == 0 ==> t.previous == U32_MAX
    ensures page < U32_MAX ==> t.next as int == page as int + 1
    ensures page == U32_MAX ==> t.next == 0
  {
    PageTriple(((page as int - 1) % 0x1_0000_0000) as u32, page, ((page as int + 1) % 0x1_0000_0000) as u32)
  }

  /** `?page=0` makes the "previous page" the last page a `u32` can number. */
  lemma PageZeroWrapsToLastPage()
    ensures AdjacentPagesAsWritten(0).previous == U32_MAX
    ensures AdjacentPagesAsWritten(0).previous > AdjacentPagesAsWritten(0).current
  {
  }

  /** `?page=4294967295` makes the "next page" page 0. */
  lemma LastPageWrapsToZero()
    ensures AdjacentPagesAsWritten(U32_MAX).next == 0
  {
  }

  /** The pages with saturating arithmetic: never below 0, never above `u32::MAX`. */
  function AdjacentPages(page: u32): (t: PageTriple)
    ensures t.current == page && t.previous <= page <= t.next
    ensures page as int - 1 <= t.previous as int && t.next as int <= page as int + 1
  {
    PageTriple(if page == 0 then 0 else page - 1, page, if page == U32_MAX then U32_MAX else page + 1)
  }

  /** Wherever the source's arithmetic does not wrap, both give `page - 1`, `page`, `page + 1`. */
  lemma AdjacentPagesAgreeInRange(page: u32)
    requires 1 <= page < U32_MAX
    ensures AdjacentPages(page) == AdjacentPagesAsWritten(page) == PageTriple(page - 1, page, page + 1)
  {
  }

  // ---- Cache keys ----

  /** `format!("http://{}:{}/search?q={}&page={}&safesearch={}", ..)`. */
  function PageKey(config: Config, query: string, page: u32, level: u8): string {
    "http://" + config.bindingIp + ":" + Decimal(config.port as int) + "/search?q="
    + query + "&page=" + Decimal(page as int) + "&safesearch=" + Decimal(level as int)
  }

  /** The key determines the query, the page and the level: two requests share a key only if all three agree. */
  lemma PageKeyInjective(config: Config, q1: string, p1: u32, l1: u8, q2: string, p2: u32, l2: u8)
    ensures PageKey(config, q1, p1, l1) == PageKey(config, q2, p2, l2) <==> q1 == q2 && p1 == p2 && l1 == l2
  {
    if PageKey(config, q1, p1, l1) == PageKey(config, q2, p2, l2) {
      var prefix := "http://" + config.bindingIp + ":" + Decimal(config.port as int) + "/search?q=";
      SplitAtDigitSuffix(prefix + q1 + "&page=" + Decimal(p1 as int), prefix + q2 + "&page=" + Decimal(p2 as int),
                         "&safesearch=", Decimal(l1 as int), Decimal(l2 as int));
      SplitAtDigitSuffix(prefix + q1, prefix + q2, "&page=", Decimal(p1 as int), Decimal(p2 as int));
      assert q1 == (prefix + q1)[|prefix|..] == (prefix + q2)[|prefix|..] == q2;
      DecimalInjective(p1 as int, p2 as int);
      DecimalInjective(l1 as int, l2 as int);
    }
  }

  /** The key and page of one `results` call. */
  datatype PageCall = PageCall(url: string, page: u32)

  /** The three `results` calls of one search, previous page first. */
  function PageCalls(config: Config, query: string, page: u32, level: u8): (calls: seq<PageCall>)
    ensures |calls| == 3 && calls[1].page == page
    ensures calls[0].page <= page <= calls[2].page
    ensures forall i :: 0 <= i < 3 ==> calls[i].url == PageKey(config, query, calls[i].page, level)
  {
    var t := AdjacentPages(page);
    [PageCall(PageKey(config, query, t.previous, level), t.previous),
     PageCall(PageKey(config, query, t.current, level), t.current),
     PageCall(PageKey(config, query, t.next, level), t.next)]
  }

  /**
   * For a page strictly between 0 and `u32::MAX` the calls are for pages
   * `page - 1`, `page` and `page + 1`, each key embeds its page and the level,
   * and the three keys are different.
   */
  lemma PageCallsAdjacent(config: Config, query: string, page: u32, level: u8)
    requires 1 <= page < U32_MAX
    ensures var calls := PageCalls(config, query, page, level);
            && |calls| == 3
            && calls[0].page == page - 1 && calls[1].page == page && calls[2].page == page + 1
            && (forall i :: 0 <= i < 3 ==> calls[i].url == PageKey(config, query, calls[i].page, level))
            && calls[0].url != calls[1].url && calls[1].url != calls[2].url && calls[0].url != calls[2].url
  {
    PageKeyInjective(config, query, page - 1, level, query, page, level);
    PageKeyInjective(config, query, page, level, query, page + 1, level);
    PageKeyInjective(config, query, page - 1, level, query, page + 1, level);
  }

  // ---- The route ----

  datatype SearchOutcome = SearchOutcome(response: Response, trace: seq<Effect>, entries: map<string, Json>)

  /** The outcome of one request to `/search`. */
  function SearchSpec(parsed: ParsedParams, config: Config, req: Request, env: Collaborators,
                      entries: map<string, Json>, connected: bool): SearchOutcome
  {
    match parsed
    case Malformed => SearchOutcome(Failed(QueryParseError), [], entries)
    case Parsed(params) =>
      match PlanSearch(params, config.safeSearch)
      case RedirectHome => SearchOutcome(Redirect("/"), [], entries)
      case Fetch(query, page, level) =>
        var calls := PageCalls(config, query, page, level);
        var o1 := ResultsSpec(calls[0].url, config, query, calls[0].page, req, level, env, entries, connected);
        var o2 := ResultsSpec(calls[1].url, config, query, calls[1].page, req, level, env, o1.entries, connected);
        var o3 := ResultsSpec(calls[2].url, config, query, calls[2].page, req, level, env, o2.entries, connected);
        var response := match o2.result case Ok(v) => Render(v) case Err(e) => Failed(e);
        SearchOutcome(response, o1.trace + o2.trace + o3.trace, o3.entries)
  }

  /** The handler of `/search`. Only the current page's result is rendered; the other two only fill the cache. */
  method Search(parsed: ParsedParams, config: Config, req: Request, env: Collaborators, cache: RedisCache)
    returns (response: Response, trace: seq<Effect>)
    modifies cache
    ensures cache.connected == old(cache.connected)
    ensures SearchOutcome(response, trace, cache.entries)
            == SearchSpec(parsed, config, req, env, old(cache.entries), old(cache.connected))
  {
    trace := [];
    if parsed.Malformed? {
      response := Failed(QueryParseError);
      return;
    }
    var params := parsed.params;
    if params.q.None? {
      response := Redirect("/");
      return;
    }
    var query := params.q.value;
    if Trim(query) == [] {
      response := Redirect("/");
      return;
    }
    var page := match params.page case Some(p) => p case None => 1;
    var safeSearch := ResolveSafeSearch(config.safeSearch, params.safesearch);
    var pages := AdjacentPages(page);
    var previousResults, t1 := Results(PageKey(config, query, pages.previous, safeSearch), config, query,
                                       pages.previous, req, safeSearch, env, cache);
    var results, t2 := Results(PageKey(config, query, page, safeSearch), config, query,
                               page, req, safeSearch, env, cache);
    var nextResults, t3 := Results(PageKey(config, query, pages.next, safeSearch), config, query,
                                   pages.next, req, safeSearch, env, cache);
    trace := t1 + t2 + t3;
    response := if results.Ok? then Render(results.value) else Failed(results.error);
  }

  // ---- Properties of the route ----

  /** A query string that does not decode is an error, not a redirect: no call is made and the cache is untouched. */
  lemma MalformedQueryIsAnError(config: Config, req: Request, env: Collaborators,
                                entries: map<string, Json>, connected: bool)
    ensures SearchSpec(Malformed, config, req, env, entries, connected)
            == SearchOutcome(Failed(QueryParseError), [], entries)
  {
  }

  /** A missing or blank query redirects to `/` without any call and without touching the cache. */
  lemma BlankQueryRedirects(params: SearchParams, config: Config, req: Request, env: Collaborators,
                            entries: map<string, Json>, connected: bool)
    requires params.q.None? || AllWhitespace(params.q.value)
    ensures SearchSpec(Parsed(params), config, req, env, entries, connected)
            == SearchOutcome(Redirect("/"), [], entries)
  {
    PlanSearchNormalises(params, config.safeSearch);
  }

  /** The keys `results` reads, in order. */
  function CacheReadKeys(trace: seq<Effect>): seq<string> {
    if trace == [] then []
    else (if trace[0].CacheRead? then [trace[0].key] else []) + CacheReadKeys(trace[1..])
  }

  lemma {:induction false} CacheReadKeysOfConcat(a: seq<Effect>, b: seq<Effect>)
    ensures CacheReadKeys(a + b) == CacheReadKeys(a) + CacheReadKeys(b)
  {
    if a == [] {
      assert a + b == b;
    } else {
      assert (a + b)[0] == a[0];
      assert (a + b)[1..] == a[1..] + b;
      CacheReadKeysOfConcat(a[1..], b);
    }
  }

  lemma {:induction false} CacheReadKeysNone(trace: seq<Effect>)
    requires forall i :: 0 <= i < |trace| ==> !trace[i].CacheRead?
    ensures CacheReadKeys(trace) == []
  {
    if trace != [] {
      assert forall i :: 0 <= i < |trace| - 1 ==> trace[1..][i] == trace[i + 1];
      CacheReadKeysNone(trace[1..]);
    }
  }

  /** One `results` call reads the cache once, under its own key. */
  lemma ResultsReadsOnce(url: string, config: Config, query: string, page: u32, req: Request, safeSearch: u8,
                         env: Collaborators, entries: map<string, Json>, connected: bool)
    ensures CacheReadKeys(ResultsSpec(url, config, query, page, req, safeSearch, env, entries, connected).trace) == [url]
  {
    var t := ResultsSpec(url, config, query, page, req, safeSearch, env, entries, connected).trace;
    ResultsTraceFacts(url, config, query, page, req, safeSearch, env, entries, connected);
    assert forall i :: 0 < i < |t| ==> !t[i].CacheRead?;
    assert forall i :: 0 <= i < |t| - 1 ==> t[1..][i] == t[i + 1];
    CacheReadKeysNone(t[1..]);
  }

  /**
   * A search for a non-blank query reads exactly three keys, in order: those
   * of the previous, the current and the next page, at the effective level.
   */
  lemma SearchReadsThreePageKeys(params: SearchParams, config: Config, req: Request, env: Collaborators,
                                 entries: map<string, Json>, connected: bool)
    requires params.q.Some? && !AllWhitespace(params.q.value)
    ensures var page := if params.page.Some? then params.page.value else 1;
            var level := ResolveSafeSearch(config.safeSearch, params.safesearch);
            var t := AdjacentPages(page);
            CacheReadKeys(SearchSpec(Parsed(params), config, req, env, entries, connected).trace)
            == [PageKey(config, params.q.value, t.previous, level),
                PageKey(config, params.q.value, page, level),
                PageKey(config, params.q.value, t.next, level)]
  {
    PlanSearchNormalises(params, config.safeSearch);
    var plan := PlanSearch(params, config.safeSearch);
    var calls := PageCalls(config, plan.query, plan.page, plan.safeSearch);
    var o1 := ResultsSpec(calls[0].url, config, plan.query, calls[0].page, req, plan.safeSearch, env, entries, connected);
    var o2 := ResultsSpec(calls[1].url, config, plan.query, calls[1].page, req, plan.safeSearch, env, o1.entries, connected);
    var o3 := ResultsSpec(calls[2].url, config, plan.query, calls[2].page, req, plan.safeSearch, env, o2.entries, connected);
    ResultsReadsOnce(calls[0].url, config, plan.query, calls[0].page, req, plan.safeSearch, env, entries, connected);
    ResultsReadsOnce(calls[1].url, config, plan.query, calls[1].page, req, plan.safeSearch, env, o1.entries, connected);
    ResultsReadsOnce(calls[2].url, config, plan.query, calls[2].page, req, plan.safeSearch, env, o2.entries, connected);
    ReadsOfThreeCalls(o1.trace, o2.trace, o3.trace, calls[0].url, calls[1].url, calls[2].url);
  }

  /** Three calls that each read one key read those three keys, in order. */
  lemma ReadsOfThreeCalls(t1: seq<Effect>, t2: seq<Effect>, t3: seq<Effect>, u1: string, u2: string, u3: string)
    requires CacheReadKeys(t1) == [u1] && CacheReadKeys(t2) == [u2] && CacheReadKeys(t3) == [u3]
    ensures CacheReadKeys(t1 + t2 + t3) == [u1, u2, u3]
  {
    CacheReadKeysOfConcat(t1, t2);
    CacheReadKeysOfConcat(t1 + t2, t3);
  }

  /**
   * The filter lists are read only when the server is configured at level 4,
   * and every aggregator call gets the query, one of the three pages and the
   * effective level.
   */
  lemma SearchCallsUseEffectiveLevel(params: SearchParams, config: Config, req: Request, env: Collaborators,
                                     entries: map<string, Json>, connected: bool)
    requires params.q.Some? && !AllWhitespace(params.q.value)
    ensures var page := if params.page.Some? then params.page.value else 1;
            var level := ResolveSafeSearch(config.safeSearch, params.safesearch);
            var t := AdjacentPages(page);
            var trace := SearchSpec(Parsed(params), config, req, env, entries, connected).trace;
            && (forall e :: e in trace && e.FilterListRead? ==> config.safeSearch == 4)
            && (forall e :: e in trace && e.AggregateCall? ==>
                  && e.request.query == params.q.value
                  && e.request.safeSearch == level
                  && e.request.page in {t.previous, page, t.next})
  {
    PlanSearchNormalises(params, config.safeSearch);
    LevelFourOnlyFromServer(config.safeSearch, params.safesearch);
    var plan := PlanSearch(params, config.safeSearch);
    var calls := PageCalls(config, plan.query, plan.page, plan.safeSearch);
    var o1 := ResultsSpec(calls[0].url, config, plan.query, calls[0].page, req, plan.safeSearch, env, entries, connected);
    var o2 := ResultsSpec(calls[1].url, config, plan.query, calls[1].page, req, plan.safeSearch, env, o1.entries, connected);
    ResultsTraceFacts(calls[0].url, config, plan.query, calls[0].page, req, plan.safeSearch, env, entries, connected);
    ResultsTraceFacts(calls[1].url, config, plan.query, calls[1].page, req, plan.safeSearch, env, o1.entries, connected);
    ResultsTraceFacts(calls[2].url, config, plan.query, calls[2].page, req, plan.safeSearch, env, o2.entries, connected);
  }

  /**
   * Only the current page decides the response: it is what `results` for the
   * current page alone, on the cache as it was before the request, would give.
   * The neighbours' errors are discarded, and the neighbour computed first
   * does not change the current page's result.
   */
  lemma SearchRendersCurrentPage(params: SearchParams, config: Config, req: Request, env: Collaborators,
                                 entries: map<string, Json>, connected: bool)
    requires params.q.Some? && !AllWhitespace(params.q.value)
    ensures var page := if params.page.Some? then params.page.value else 1;
            var level := ResolveSafeSearch(config.safeSearch, params.safesearch);
            var current := ResultsSpec(PageKey(config, params.q.value, page, level), config, params.q.value, page,
                                       req, level, env, entries, connected);
            SearchSpec(Parsed(params), config, req, env, entries, connected).response
            == match current.result case Ok(v) => Render(v) case Err(e) => Failed(e)
  {
    PlanSearchNormalises(params, config.safeSearch);
    var plan := PlanSearch(params, config.safeSearch);
    var calls := PageCalls(config, plan.query, plan.page, plan.safeSearch);
    if plan.page == 0 {
      RepeatedCallSameResult(calls[0].url, config, plan.query, 0, req, plan.safeSearch, env, entries, connected);
    } else {
      PageKeyInjective(config, plan.query, plan.page - 1, plan.safeSearch, plan.query, plan.page, plan.safeSearch);
      OtherKeyUnaffected(calls[0].url, calls[0].page, calls[1].url, calls[1].page, config, plan.query,
                         req, plan.safeSearch, env, entries, connected);
    }
  }
}

=== FILE: text.dfy ===
/**
 * The two pieces of string handling the search route relies on: Rust's
 * `str::trim` (used to decide whether a query is blank) and the decimal
 * rendering of integers by `format!("{}")` (used to build the cache key).
 */
module Text {

  /** Unicode's White_Space property, the character class `str::trim` strips. */
  predicate IsWhitespace(c: char) {
    var n := c as int;
    (0x09 <= n <= 0x0D) || n == 0x20 || n == 0x85 || n == 0xA0 || n == 0x1680
    || (0x2000 <= n <= 0x200A) || n == 0x2028 || n == 0x2029 || n == 0x202F
    || n == 0x205F || n == 0x3000
  }

  predicate AllWhitespace(s: string) {
    forall i :: 0 <= i < |s| ==> IsWhitespace(s[i])
  }

  /** `str::trim_start`: drops the leading whitespace and nothing else. */
  function TrimStart(s: string): (r: string)
    ensures |r| <= |s| && r == s[|s| - |r|..]
    ensures AllWhitespace(s[..|s| - |r|])
    ensures r != [] ==> !IsWhitespace(r[0])
  {
    if s != [] && IsWhitespace(s[0]) then
      var r := TrimStart(s[1..]);
      assert s[..|s| - |r|] == [s[0]] + s[1..][..|s| - 1 - |r|];
      r
    else s
  }

  /** `str::trim_end`: drops the trailing whitespace and nothing else. */
  function TrimEnd(s: string): (r: string)
    ensures |r| <= |s| && r == s[..|r|]
    ensures AllWhitespace(s[|r|..])
    ensures r != [] ==> !IsWhitespace(r[|r| - 1])
  {
    if s != [] && IsWhitespace(s[|s| - 1]) then
      var r := TrimEnd(s[..|s| - 1]);
      assert s[|r|..] == s[..|s| - 1][|r|..] + [s[|s| - 1]];
      r
    else s
  }

  /** `str::trim`: a piece of `s` that neither starts nor ends with whitespace. */
  function Trim(s: string): (r: string)
    ensures |r| <= |s|
    ensures r != [] ==> !IsWhitespace(r[0]) && !IsWhitespace(r[|r| - 1])
    ensures AllWhitespace(s) ==> r == []
    ensures exists i, j :: 0 <= i <= j <= |s| && r == s[i..j] && AllWhitespace(s[..i]) && AllWhitespace(s[j..])
  {
    var front := TrimStart(s);
    var r := TrimEnd(front);
    assert r != [] ==> r[0] == front[0];
    var i := |s| - |front|;
    var j := i + |r|;
    assert front == s[i..];
    assert r == s[i..j];
    assert s[j..] == front[|r|..];
    r
  }

  /** `query.trim().is_empty()` holds exactly for the strings made of whitespace only. */
  lemma TrimEmptyIffAllWhitespace(s: string)
    ensures Trim(s) == [] <==> AllWhitespace(s)
  {
    var front := TrimStart(s);
    if Trim(s) == [] {
      assert AllWhitespace(front[0..]);
      assert front == [];
      assert s[..|s|] == s;
    }
  }

  predicate IsDigit(c: char) {
    '0' <= c <= '9'
  }

  predicate AllDigits(s: string) {
    forall i :: 0 <= i < |s| ==> IsDigit(s[i])
  }

  function DigitChar(d: nat): (c: char)
    requires d < 10
    ensures IsDigit(c) && c as int - '0' as int == d
  {
    ('0' as int + d) as char
  }

  function DigitValue(c: char): nat
    requires IsDigit(c)
  {
    c as int - '0' as int
  }

  /** `format!("{}", n)` for an unsigned integer: base ten, no sign, no leading zero. */
  function Decimal(n: nat): (s: string)
    ensures s != [] && AllDigits(s)
    ensures s[0] == '0' <==> n == 0
  {
    if n < 10 then [DigitChar(n)] else Decimal(n / 10) + [DigitChar(n % 10)]
  }

  /** The value a string of decimal digits denotes (its parse). */
  function DecimalValue(s: string): nat
    requires AllDigits(s)
  {
    if s == [] then 0 else DecimalValue(s[..|s| - 1]) * 10 + DigitValue(s[|s| - 1])
  }

  /** Parsing the rendering of `n` gives `n` back. */
  lemma {:induction false} DecimalRoundTrip(n: nat)
    ensures DecimalValue(Decimal(n)) == n
  {
    var s := Decimal(n);
    if n < 10 {
      assert s[..|s| - 1] == [];
    } else {
      assert s[..|s| - 1] == Decimal(n / 10);
      DecimalRoundTrip(n / 10);
    }
  }

  /** Different numbers are rendered differently. */
  lemma DecimalInjective(m: nat, n: nat)
    ensures Decimal(m) == Decimal(n) <==> m == n
  {
    DecimalRoundTrip(m);
    DecimalRoundTrip(n);
  }

  /** The length of the longest run of digits that ends `s`. */
  function TrailingDigits(s: string): (n: nat)
    ensures n <= |s|
  {
    if s != [] && IsDigit(s[|s| - 1]) then 1 + TrailingDigits(s[..|s| - 1]) else 0
  }

  lemma {:induction false} TrailingDigitsAfterSeparator(w: string, a: string)
    requires w != [] && !IsDigit(w[|w| - 1])
    requires AllDigits(a)
    ensures TrailingDigits(w + a) == |a|
  {
    if a != [] {
      assert (w + a)[..|w + a| - 1] == w + a[..|a| - 1];
      TrailingDigitsAfterSeparator(w, a[..|a| - 1]);
    }
  }

  /**
   * A string ending in `sep` followed by a run of digits splits uniquely
   * when `sep` ends in a non-digit: the digit run is maximal.
   */
  lemma SplitAtDigitSuffix(x: string, y: string, sep: string, a: string, b: string)
    requires sep != [] && !IsDigit(sep[|sep| - 1])
    requires AllDigits(a) && AllDigits(b)
    requires x + sep + a == y + sep + b
    ensures a == b && x == y
  {
    var l := x + sep + a;
    var r := y + sep + b;
    TrailingDigitsAfterSeparator(x + sep, a);
    TrailingDigitsAfterSeparator(y + sep, b);
    assert a == l[|l| - |a|..] == r[|r| - |b|..] == b;
    assert x == l[..|x|] == r[..|y|] == y;
  }
}
